=== FILE: README.md ===
# Web Push demo: key decoder, subscription slot, dispatcher and service worker

A Dafny model of the logic in a small Next.js Web Push demonstration:

- **Key decoder** (`app/push.tsx`, `urlBase64ToUint8Array`). The VAPID
  application-server public key arrives as base64url text (section 5 of
  RFC 4648). The decoder pads it with `=`, maps `-`/`_` to `+`/`/`, decodes
  it with the browser's `atob`, and copies the character codes into a
  `Uint8Array`. `atob` is modelled after the forgiving-base64 decode
  algorithm of the WHATWG Infra Standard: whitespace removal, stripping of
  one or two trailing `=` when the length is a multiple of four, rejection
  of a length of 1 modulo 4 and of characters outside the standard
  alphabet, and no check of the discarded low bits. An unpadded base64url
  encoder (module `Base64Url`) serves as the reference for the round trip.
- **Server actions** (`app/actions.ts`). A single module-level slot holds the
  last serialized subscription. `subscribeUser` overwrites it and
  `unsubscribeUser` clears it. `sendNotification` throws when it has no
  subscription or no keys. Otherwise it calls the `web-push` library once
  with the copied endpoint and keys and a `{title, body, icon, url}`
  payload, and it turns a rejection into `{success: false, error}`.
  Sequences of calls are modelled against the slot (module `Actions`).
- **Service worker** (`public/sw.js`). The `push` handler builds the title
  and options of the notification it shows. The `notificationclick`
  handler closes the notification and then opens `data?.url` or the
  fallback site (module `ServiceWorker`, over the JavaScript values of
  module `Js`).
- **Page handlers** (`app/push.tsx`, `subscribeToPush`,
  `unsubscribeFromPush`, `sendTestNotification`). Each is a function from
  the page's subscription state and the server slot to the next state and
  the ordered calls it makes (module `PushClient`). Browser promises are
  oracle parameters.
- **End to end** (module `Delivery`): what the worker shows for a message
  the server sent, and where a click on it leads.

In two places the code does something other than a reader might expect, and the model follows the code:
- `sendNotification` with a missing subscription or missing keys throws
  `'No hay suscripción disponible'`. It does not return a failure object.
- A push payload that is not JSON (or is `null`) makes the push handler
  throw. The handler does not drop it silently.

The server slot is only ever written. `sendNotification` uses the
subscription the page passes in, never the slot.

## Model

| member | source | states |
|---|---|---|
| Base64Url.Padding | app/push.tsx:9 | 0 to 3 `=` characters are added. None are added exactly when the length is a multiple of 4, and the padded length is always a multiple of 4. |
| Base64Url.ReplaceAll | app/push.tsx:10 | A global single-character replace keeps the length. It changes every occurrence of the character and leaves every other position unchanged, so none of the character remains. |
| Base64Url.ToStandard | app/push.tsx:9-10 | The string handed to `atob` has length equal to the input plus the padding, a multiple of 4. Each `-` becomes `+` and each `_` becomes `/`. Every other character, `+` and `/` included, stays in place. No `-` or `_` remains, and the tail is `=`. |
| Base64Url.Atob | app/push.tsx:12 | Every character `atob` returns has a code below 256. |
| Base64Url.CopyCharCodes | app/push.tsx:13-18 | The copy loop yields one element per character. Element i is character i's code modulo 256, which is the code itself when the code is below 256. The loop computes exactly `CharCodes`, the copy the decoder applies. |
| Base64Url.UrlBase64ToUint8Array | app/push.tsx:8-19 | The decoder fails exactly when `atob` throws on the padded, substituted text. Otherwise it returns one byte per character `atob` produced, each equal to that character's code. Its round trip and its exact domain are stated by `RoundTrip` and `AcceptedExactly`. |
| Base64Url.RoundTrip | app/push.tsx:8-19 | Writing any byte sequence as unpadded base64url and decoding it gives back exactly those bytes. |
| Base64Url.AcceptedExactly | app/push.tsx:8-19 | For input without whitespace or `=`, decoding succeeds if and only if the length is not 1 modulo 4 and every character is in the base64url or standard alphabet. Then n characters decode to n*3/4 bytes, rounded down. |
| Base64Url.RejectsLengthOneModFour | app/push.tsx:9-12 | Input of length 1 modulo 4 makes `atob` throw, whatever its characters, whitespace included: the three `=` of padding survive whitespace removal, at most two are stripped, and the third is invalid. |
| Base64Url.RejectsForeignCharacter | app/push.tsx:10-12 | A single character outside both alphabets, other than `=` or whitespace, makes `atob` throw, wherever it sits and whatever the rest of the input holds. |
| Base64Url.LeftoverBitsIgnored | app/push.tsx:12 | Decoding is not injective: `AB` and `AA` both decode to the single byte 0, because `atob` drops the low bits of a final partial group without checking them. |
| Base64Url.DecodeThenEncode | app/push.tsx:8-19 | Decode then encode: base64url text whose final partial group has all leftover bits zero (and whose length is not 1 modulo 4) decodes, and the unpadded base64url encoding of the result is the text itself. |
| Base64Url.ReencodesOnlyCanonical | app/push.tsx:8-19 | The converse: base64url text that decodes and re-encodes to itself has a length other than 1 modulo 4 and zero leftover bits. So for other decodable text, such as `AB`, re-encoding gives a different string. |
| Base64Url.SextetsInverse | app/push.tsx:12 | At the level of 6-bit groups, the encoder undoes the decoder on every value sequence whose final partial group has zero leftover bits. |
| Base64Url.EncodedIsCanonical | app/push.tsx:12 | Every encoder output has a length other than 1 modulo 4 and zero leftover bits in its final partial group. |
| Base64Url.SextetsRoundTrip | app/push.tsx:12 | Decoding undoes encoding at the level of 6-bit groups, for every byte sequence, including final groups of 1 and 2 bytes. |
| Actions.SubscribeUser | app/actions.ts:28-33 | `subscribeUser(r)` leaves exactly `r` in the slot and returns `{success: true}` with no error. Repeated writes are covered by `LastWriteWins` and `RunIsLastWrite`. |
| Actions.UnsubscribeUser | app/actions.ts:35-40 | `unsubscribeUser()` empties the slot from any state and returns `{success: true}` with no error. Idempotence is covered by `UnsubscribeIdempotent`. |
| Actions.SubscribeOverwrites | app/actions.ts:28-33 | `subscribeUser(r)` does not depend on the slot: the reply is the same whatever it held before. Storing the same record a second time changes nothing. |
| Actions.UnsubscribeIdempotent | app/actions.ts:35-40 | `unsubscribeUser()` does not depend on the slot: the reply is the same from any state. A second call changes nothing. |
| Actions.LastWriteWins | app/actions.ts:26-40 | Subscribing r1 then r2 leaves r2. Subscribing r then unsubscribing leaves the slot empty. |
| Actions.RunIsLastWrite | app/actions.ts:26-71 | After any sequence of action calls, the slot holds the argument of the last subscribe. It is empty if the last write was an unsubscribe, and it keeps the initial value if no call wrote to it. |
| Actions.SendIgnoresSlot | app/actions.ts:42-71 | `sendNotification` leaves the slot unchanged, and its outcome does not depend on what the slot holds. |
| Actions.Payload | app/actions.ts:59-64 | The payload object has exactly the members `title`, `body`, `icon` and `url`. Title, body and url are copied from the message, and the icon is `/icon.png`. |
| Actions.SendNotification | app/actions.ts:42-71 | The library is called if and only if both the subscription and its keys are present. Otherwise the action throws `No hay suscripción disponible`. The call gets the endpoint, `p256dh` and `auth` unchanged, plus the payload. The result is `{success: true}` if and only if the send succeeds. A failed send returns `{success: false, error: 'Error al enviar la notificación'}` and never throws. |
| ServiceWorker.OnPush | public/sw.js:1-16 | No data means no notification. JSON that does not parse, or a `null` payload, makes the handler throw. Otherwise the title and body are the payload's. The icon is the payload's icon when that is truthy, else `/icon.png`. The badge is `/badge.png`, vibrate is `[100, 50, 100]`, and the data is the arrival data. |
| ServiceWorker.MissingIconUsesDefault | public/sw.js:6 | A payload object without `icon` is shown with `/icon.png`. |
| ServiceWorker.ClickTarget | public/sw.js:23-24 | The window opened is `data?.url` when that is truthy, otherwise `https://jorgecastrillo.blog`. Missing data and an empty string also fall back. |
| ServiceWorker.OnNotificationClick | public/sw.js:18-26 | The handler first closes the notification and then opens exactly one window, at the target URL. |
| ServiceWorker.ShownDataHasNoUrl | public/sw.js:9-12 | No notification this worker shows carries a `url` in its data. |
| ServiceWorker.ClickOnShownOpensFallback | public/sw.js:9-24 | A click on any notification this worker showed opens the fallback URL. |
| ServiceWorker.OnPushWithUrl | public/sw.js:9-12 | The corrected handler shows a notification exactly when `OnPush` does, with the same title, body, icon, badge and vibrate. The only difference is its data, which is the arrival data plus the payload's `url`. When nothing is shown, its outcome is `OnPush`'s: no data is still ignored, and a payload that is not JSON or is `null` still throws. |
| ServiceWorker.ClickOnCorrectedOpensPayloadUrl | public/sw.js:23-24 | With the corrected handler, a click opens the payload's `url` when it is truthy, otherwise the fallback. |
| PushClient.SubscribeToPush | app/push.tsx:46-59 | An unset or empty key gives only an alert and no change. `pushManager.subscribe` is reached only with the key's decoded bytes. On completion it made exactly three calls: subscribe, set the page state, store the record on the server. After completion the page and the server slot hold the granted subscription. When it does not complete, nothing changes, and the only call that can have been made is the subscribe attempt; `PushClient.SubscribeOutcome` pins that this attempt is always made once the key decodes. |
| PushClient.SubscribeOutcome | app/push.tsx:51-59 | With a key configured, the handler completes if and only if the key decodes and the browser grants the subscription. A key that decodes is always handed to `pushManager.subscribe`, as exactly its decoded bytes, as the first call, so there is exactly one subscribe attempt once the key decodes. A key that does not decode stops it before any `pushManager.subscribe` or server call. |
| PushClient.MissingKeyChangesNothing | app/push.tsx:47-50 | With no key there is no subscribe attempt and no server call, and the state is unchanged. |
| PushClient.MalformedKeyNeverSubscribes | app/push.tsx:52-54 | Any key of length 1 modulo 4, whitespace included, makes the handler reject before any subscribe attempt, with the state unchanged. |
| PushClient.EncodedKeyReachesBrowser | app/push.tsx:52-55 | A key that is the base64url text of some non-empty byte sequence reaches `pushManager.subscribe` as exactly those bytes. The empty sequence is excluded because its text `""` counts as an unset key. |
| PushClient.UnsubscribeFromPush | app/push.tsx:61-65 | On completion both the page state and the server slot are empty. A failed browser teardown changes nothing and skips the server call. Completion fails only when a present subscription's teardown fails. With no page subscription the browser call is skipped, but the page state is still cleared and `unsubscribeUser` is still called, in that order. |
| PushClient.UnsubscribeOrder | app/push.tsx:61-65 | A normal unsubscribe first tears down the browser subscription, then clears the page state, then clears the server slot. |
| PushClient.SendTestNotification | app/push.tsx:67-73 | A test send happens only while a page subscription is present. Then exactly one send is made, with the given message and that subscription's record. It never changes state. With a subscription present, it completes if and only if the record has keys; a keyless record makes the server action throw and the handler reject. |
| PushClient.SessionKeepsSynced | app/push.tsx:46-73 | If the server slot starts out agreeing with the page's subscription, it still agrees after any sequence of subscribe, unsubscribe and send presses. |
| Delivery.DeliveredMessageIsShown | app/actions.ts:57-65 | A delivered message is shown with the message's title and body and the icon `/icon.png`. |
| Delivery.ClickIgnoresMessageUrl | public/sw.js:9-24 | As written, clicking a delivered notification opens the fallback URL, even when the message carried a different non-empty `url`. |
| Delivery.ClickOpensMessageUrl | public/sw.js:23-24 | With the corrected push handler, clicking opens the message's `url`. The fallback is used only when that url is empty. |

## Left out

- The React component's rendering, `useState`/`useEffect` plumbing and form inputs (app/push.tsx:21-35, 75-131). This includes the capability check and the buttons that appear depending on the subscription state. They are presentation only, so sessions apply any handler in any state.
- Service worker registration and the start-up reconciliation through `getSubscription` (app/push.tsx:37-44). These are browser APIs. A session starts from an arbitrary page state instead.
- The `await navigator.serviceWorker.ready` at the start of `subscribeToPush` (app/push.tsx:51). The model takes that promise to be resolved. If registration failed it never settles, and the handler then neither completes nor rejects; the model has no such hanging run.
- `pushManager.subscribe`, `subscription.unsubscribe()` and the `web-push` send are oracle parameters: each either resolves or rejects. The reasons for a rejection (permission denied, expired subscription, unreachable service) are not distinguished.
- `PushSubscription.toJSON` and the `JSON.parse(JSON.stringify(sub))` copy (app/push.tsx:57, 70). Each browser handle carries the record this copy yields.
- VAPID signing, payload encryption and delivery inside `web-push`, and `setVapidDetails` at module load (app/actions.ts:20-24). These are a foreign library.
- The JSON text of the payload. `JSON.stringify` on the server followed by `json()` in the worker is taken to return the same object. A non-JSON payload is an input of the push handler, not the result of parsing text.
- `Date.now()`, which is the parameter `now`. Also left out: `event.waitUntil`, `console.log`/`console.error`, and the text of `alert`.
- JavaScript numbers are integers here. NaN and fractional values, which matter only for truthiness, are not modelled.
- The server actions `subscribeUser` and `unsubscribeUser` always resolve, because a network failure between page and server is not modelled. Concurrent action invocations are not modelled either: calls are sequential.
- app/page.tsx: static markup with no logic.
- A half-filled `keys` object. A serialized subscription's `keys` is either `null` or a pair with both `p256dh` and `auth`, so the model cannot represent `{p256dh: "x"}` without `auth`. The code would pass such an object on, because `!sub.keys` is false for it, and `auth: undefined` would reach the push library (app/actions.ts:43, 51-52).

## Findings

| source | as written | input that shows it | evidently intended | confidence | as-written member | corrected member |
|---|---|---|---|---|---|---|
| public/sw.js:9-12 | The push handler attaches only `dateOfArrival` and `primaryKey` as notification data. The click handler reads `data?.url` (sw.js:23-24), so a click always opens the fallback site, even though the server sends a `url` in every payload (app/actions.ts:63). | `sendNotification({title: "T", body: "B", url: "https://x"}, sub)` with keys, delivered, then clicked: `https://jorgecastrillo.blog` opens instead of `https://x` | the payload's `url` travels in the notification data, so a click opens it | medium, not executed | Delivery.ClickIgnoresMessageUrl | ServiceWorker.OnPushWithUrl |

=== FILE: actions.dfy ===
/**
 * The server actions: a single module-level slot holding the last
 * serialized push subscription, `subscribeUser` and `unsubscribeUser` that
 * overwrite it, and `sendNotification` that hands a message to the
 * `web-push` library. The library call (VAPID signing, payload encryption,
 * delivery) is an oracle: `delivered` says whether its promise resolved.
 */
module Actions {
  import opened Wrappers
  import Js

  /** The `keys` member of a serialized subscription. */
  datatype Keys = Keys(p256dh: string, auth: string)

  /** `SerializedSubscription`: `keys` is `null` when the browser gave none. */
  datatype SerializedSubscription = SerializedSubscription(endpoint: string, keys: Option<Keys>)

  /** `PushMessage` as the client sends it. */
  datatype PushMessage = PushMessage(title: string, body: string, url: string)

  /** The module-level `subscription` variable; `None` is `null`. */
  type Slot = Option<SerializedSubscription>

  /** The `{ success, error? }` object an action returns. */
  datatype ActionResult = ActionResult(success: bool, error: Option<string>)

  const Succeeded := ActionResult(true, None)
  const NoSubscriptionMessage := "No hay suscripción disponible"
  const SendFailedMessage := "Error al enviar la notificación"
  const PayloadIcon := "/icon.png"

  /** The subscription object in the shape `web-push` expects. */
  datatype WebPushSubscription = WebPushSubscription(endpoint: string, keys: Keys)

  /** One call of `webpush.sendNotification`: the target and the JSON payload. */
  datatype SendRequest = SendRequest(target: WebPushSubscription, payload: Js.Value)

  /** How an action call ends: a thrown `Error` with its message, or a returned object. */
  datatype Outcome = Threw(message: string) | Returned(result: ActionResult)

  /** What `sendNotification` did: the library call it made, if any, and how it ended. */
  datatype Dispatch = Dispatch(request: Option<SendRequest>, outcome: Outcome)

  // ---------------------------------------------------------------------
  // The three actions

  /** State after an action, with its result. */
  datatype Reply<R> = Reply(slot: Slot, result: R)

  /** `subscribeUser(sub)`: store `sub` and report success. */
  function SubscribeUser(slot: Slot, sub: SerializedSubscription): (r: Reply<ActionResult>)
    ensures r.slot == Some(sub) && r.result.success && r.result.error.None?
  {
    Reply(Some(sub), Succeeded)
  }

  /** `unsubscribeUser()`: clear the slot and report success. */
  function UnsubscribeUser(slot: Slot): (r: Reply<ActionResult>)
    ensures r.slot.None? && r.result.success && r.result.error.None?
  {
    Reply(None, Succeeded)
  }

  /** The object passed to `JSON.stringify`: the message's title, body and url, and the fixed icon. */
  function Payload(message: PushMessage): (v: Js.Value)
    ensures v.Obj? && v.fields.Keys == {"title", "body", "icon", "url"}
    ensures v.fields["title"] == Js.Str(message.title)
    ensures v.fields["body"] == Js.Str(message.body)
    ensures v.fields["url"] == Js.Str(message.url)
    ensures v.fields["icon"] == Js.Str(PayloadIcon)
  {
    Js.Obj(map[
      "title" := Js.Str(message.title),
      "body" := Js.Str(message.body),
      "icon" := Js.Str(PayloadIcon),
      "url" := Js.Str(message.url)])
  }

  /**
   * `sendNotification(message, sub)`: throws when there is no subscription
   * or it has no keys, without calling the library; otherwise calls it once
   * and turns a rejection into a failure result.
   */
  function SendNotification(message: PushMessage, sub: Option<SerializedSubscription>, delivered: bool): (d: Dispatch)
    ensures d.request.None? <==> sub.None? || sub.value.keys.None?
    ensures d.request.None? ==> d.outcome == Threw(NoSubscriptionMessage)
    ensures d.request.Some? ==>
      && d.request.value.target.endpoint == sub.value.endpoint
      && d.request.value.target.keys.p256dh == sub.value.keys.value.p256dh
      && d.request.value.target.keys.auth == sub.value.keys.value.auth
      && d.request.value.payload == Payload(message)
      && d.outcome.Returned?
    ensures d.outcome == Returned(Succeeded) <==> d.request.Some? && delivered
    ensures d.request.Some? && !delivered ==> d.outcome == Returned(ActionResult(false, Some(SendFailedMessage)))
  {
    if sub.None? || sub.value.keys.None? then
      Dispatch(None, Threw(NoSubscriptionMessage))
    else
      var keys := sub.value.keys.value;
      var target := WebPushSubscription(sub.value.endpoint, Keys(keys.p256dh, keys.auth));
      var request := SendRequest(target, Payload(message));
      if delivered then Dispatch(Some(request), Returned(Succeeded))
      else Dispatch(Some(request), Returned(ActionResult(false, Some(SendFailedMessage))))
  }

  // ---------------------------------------------------------------------
  // Sequences of action calls against the one slot

  /** One server-action invocation; calls are taken one after another. */
  datatype Call =
    | Subscribe(sub: SerializedSubscription)
    | Unsubscribe
    | Send(message: PushMessage, target: Option<SerializedSubscription>, delivered: bool)

  /** What a call returned (or threw). */
  datatype Response = Acked(result: ActionResult) | Sent(dispatch: Dispatch)

  /** The slot and response after one call. */
  function Step(slot: Slot, call: Call): Reply<Response>
  {
    match call
    case Subscribe(sub) =>
      var r := SubscribeUser(slot, sub); Reply(r.slot, Acked(r.result))
    case Unsubscribe =>
      var r := UnsubscribeUser(slot); Reply(r.slot, Acked(r.result))
    case Send(message, sub, delivered) =>
      Reply(slot, Sent(SendNotification(message, sub, delivered)))
  }

  /** The slot after a sequence of calls, applied from the first. */
  function Run(slot: Slot, calls: seq<Call>): Slot
    decreases |calls|
  {
    if calls == [] then slot else Run(Step(slot, calls[0]).slot, calls[1..])
  }

  /**
   * Reference definition of the slot's content: the argument of the last
   * `subscribeUser`, `null` when the last write was `unsubscribeUser`, and the
   * initial value when there was no write at all.
   */
  function LastWrite(slot: Slot, calls: seq<Call>): Slot
    decreases |calls|
  {
    if calls == [] then slot
    else match calls[|calls| - 1]
      case Subscribe(sub) => Some(sub)
      case Unsubscribe => None
      case Send(_, _, _) => LastWrite(slot, calls[..|calls| - 1])
  }

  // ---------------------------------------------------------------------
  // Properties

  /**
   * `subscribeUser(r)` overwrites: what the slot held before has no influence
   * on the reply, and storing the same record again changes nothing.
   */
  lemma SubscribeOverwrites(s1: Slot, s2: Slot, sub: SerializedSubscription)
    ensures SubscribeUser(s1, sub) == SubscribeUser(s2, sub)
    ensures SubscribeUser(SubscribeUser(s1, sub).slot, sub) == SubscribeUser(s1, sub)
  {
  }

  /**
   * `unsubscribeUser()` does not depend on the slot, so a second call
   * changes nothing.
   */
  lemma UnsubscribeIdempotent(s1: Slot, s2: Slot)
    ensures UnsubscribeUser(s1) == UnsubscribeUser(s2)
    ensures UnsubscribeUser(UnsubscribeUser(s1).slot) == UnsubscribeUser(s1)
  {
  }

  /** Last write wins: subscribe r1 then r2 leaves r2; subscribe r then unsubscribe leaves `null`. */
  lemma LastWriteWins(slot: Slot, r1: SerializedSubscription, r2: SerializedSubscription)
    ensures Run(slot, [Subscribe(r1), Subscribe(r2)]) == Some(r2)
    ensures Run(slot, [Subscribe(r1), Unsubscribe]) == None
  {
    RunIsLastWrite(slot, [Subscribe(r1), Subscribe(r2)]);
    RunIsLastWrite(slot, [Subscribe(r1), Unsubscribe]);
  }

  /**
   * `sendNotification` neither reads nor writes the slot: it leaves it as it
   * was, and its response is the same whatever the slot holds.
   */
  lemma SendIgnoresSlot(s1: Slot, s2: Slot, message: PushMessage, sub: Option<SerializedSubscription>, delivered: bool)
    ensures Step(s1, Send(message, sub, delivered)).slot == s1
    ensures Step(s1, Send(message, sub, delivered)).result == Step(s2, Send(message, sub, delivered)).result
  {
  }

  /** Running one more call is one more step. */
  lemma {:induction false} RunSnoc(slot: Slot, calls: seq<Call>, call: Call)
    ensures Run(slot, calls + [call]) == Step(Run(slot, calls), call).slot
    decreases |calls|
  {
    if calls != [] {
      assert (calls + [call])[1..] == calls[1..] + [call];
      RunSnoc(Step(slot, calls[0]).slot, calls[1..], call);
    }
  }

  /** After any sequence of calls the slot holds the last write, or the initial value if there was none. */
  lemma {:induction false} RunIsLastWrite(slot: Slot, calls: seq<Call>)
    ensures Run(slot, calls) == LastWrite(slot, calls)
    decreases |calls|
  {
    if calls != [] {
      var init := calls[..|calls| - 1];
      var last := calls[|calls| - 1];
      assert calls == init + [last];
      RunSnoc(slot, init, last);
      RunIsLastWrite(slot, init);
    }
  }
}

=== FILE: base64url.dfy ===
/**
 * The client-side decoder `urlBase64ToUint8Array` that turns the VAPID
 * application-server public key (base64url, section 5 of RFC 4648) into
 * bytes: pad with `=`, map the URL-safe alphabet onto the standard one
 * (section 4 of RFC 4648), decode with the browser's `atob`, and copy the
 * character codes into a `Uint8Array`.
 *
 * `atob` follows the forgiving-base64 decode algorithm of the WHATWG Infra
 * Standard: ASCII whitespace is removed, one or two trailing
 * `=` are dropped when the length is a multiple of four, a length of 1
 * modulo 4 or any character outside the standard alphabet is a failure
 * (an `InvalidCharacterError`, modelled as `None`), and leftover bits of a
 * final partial group are discarded without being checked.
 */
module Base64Url {
  import opened Wrappers

  type uint8 = x: int | 0 <= x < 256
  /** A 6-bit group, the value of one base64 character. */
  type sextet = x: int | 0 <= x < 64

  // ---------------------------------------------------------------------
  // Alphabets

  /** The standard alphabet of section 4 of RFC 4648. */
  predicate IsStdChar(c: char) {
    ('A' <= c <= 'Z') || ('a' <= c <= 'z') || ('0' <= c <= '9') || c == '+' || c == '/'
  }

  /** The URL- and filename-safe alphabet of section 5 of RFC 4648. */
  predicate IsUrlChar(c: char) {
    ('A' <= c <= 'Z') || ('a' <= c <= 'z') || ('0' <= c <= '9') || c == '-' || c == '_'
  }

  /** ASCII whitespace as the Infra Standard defines it: TAB, LF, FF, CR, SPACE. */
  predicate IsAsciiWhitespace(c: char) {
    c == '\t' || c == '\n' || c == '\U{000C}' || c == '\r' || c == ' '
  }

  /** The value of a character of the standard alphabet. */
  function StdValue(c: char): sextet
    requires IsStdChar(c)
  {
    if 'A' <= c <= 'Z' then c as int - 'A' as int
    else if 'a' <= c <= 'z' then c as int - 'a' as int + 26
    else if '0' <= c <= '9' then c as int - '0' as int + 52
    else if c == '+' then 62
    else 63
  }

  /** The character of the standard alphabet for a value; inverse of `StdValue`. */
  function StdChar(v: sextet): (c: char)
    ensures IsStdChar(c) && StdValue(c) == v
  {
    if v < 26 then ('A' as int + v) as char
    else if v < 52 then ('a' as int + v - 26) as char
    else if v < 62 then ('0' as int + v - 52) as char
    else if v == 62 then '+'
    else '/'
  }

  /** The character of the URL-safe alphabet for a value. */
  function UrlChar(v: sextet): (c: char)
    ensures IsUrlChar(c)
    ensures c != '-' && c != '_' ==> c == StdChar(v)
    ensures c == '-' <==> v == 62
    ensures c == '_' <==> v == 63
  {
    if v == 62 then '-' else if v == 63 then '_' else StdChar(v)
  }

  // ---------------------------------------------------------------------
  // Step 1: padding (push.tsx line 9)

  /** `c` repeated `n` times (`String.prototype.repeat`). */
  function Repeat(c: char, n: nat): (s: string)
    ensures |s| == n && forall i :: 0 <= i < n ==> s[i] == c
  {
    if n == 0 then [] else [c] + Repeat(c, n - 1)
  }

  /** The `=` padding appended to an input of length `n`. */
  function Padding(n: nat): (p: string)
    ensures |p| <= 3
    ensures |p| == 0 <==> n % 4 == 0
    ensures (n + |p|) % 4 == 0
    ensures forall i :: 0 <= i < |p| ==> p[i] == '='
  {
    Repeat('=', (4 - n % 4) % 4)
  }

  // ---------------------------------------------------------------------
  // Step 2: alphabet substitution (push.tsx line 10)

  /** `s.replace(/from/g, to)` for single characters. */
  function ReplaceAll(s: string, from: char, to: char): (t: string)
    requires from != to
    ensures |t| == |s|
    ensures from !in t
    ensures forall i :: 0 <= i < |s| && s[i] == from ==> t[i] == to
    ensures forall i :: 0 <= i < |s| && s[i] != from ==> t[i] == s[i]
  {
    if s == [] then []
    else [if s[0] == from then to else s[0]] + ReplaceAll(s[1..], from, to)
  }

  /** The string handed to `atob`: the input padded, then `-` to `+` and `_` to `/`. */
  function ToStandard(s: string): (t: string)
    ensures |t| == |s| + |Padding(|s|)| && |t| % 4 == 0
    ensures '-' !in t && '_' !in t
    ensures forall i :: 0 <= i < |s| && s[i] == '-' ==> t[i] == '+'
    ensures forall i :: 0 <= i < |s| && s[i] == '_' ==> t[i] == '/'
    ensures forall i :: 0 <= i < |s| && s[i] != '-' && s[i] != '_' ==> t[i] == s[i]
    ensures forall i :: |s| <= i < |t| ==> t[i] == '='
  {
    var padded := s + Padding(|s|);
    ReplaceAll(ReplaceAll(padded, '-', '+'), '_', '/')
  }

  // ---------------------------------------------------------------------
  // Step 3: atob (push.tsx line 12)

  /** `s` without its ASCII whitespace. */
  function RemoveWhitespace(s: string): (t: string)
    ensures |t| <= |s|
    ensures forall i :: 0 <= i < |t| ==> !IsAsciiWhitespace(t[i])
    ensures (forall i :: 0 <= i < |s| ==> !IsAsciiWhitespace(s[i])) ==> t == s
  {
    if s == [] then []
    else if IsAsciiWhitespace(s[0]) then RemoveWhitespace(s[1..])
    else [s[0]] + RemoveWhitespace(s[1..])
  }

  /** Drops one or two trailing `=` from a string whose length is a multiple of four. */
  function StripPadding(d: string): (e: string)
    ensures |e| <= |d| <= |e| + 2
    ensures e == d[..|e|]
    ensures forall i :: |e| <= i < |d| ==> d[i] == '='
    ensures |d| % 4 == 0 && (|d| == 0 || d[|d| - 1] != '=') ==> e == d
    ensures |d| % 4 != 0 ==> e == d
  {
    if |d| % 4 != 0 then d
    else if |d| >= 2 && d[|d| - 2] == '=' && d[|d| - 1] == '=' then d[..|d| - 2]
    else if |d| >= 1 && d[|d| - 1] == '=' then d[..|d| - 1]
    else d
  }

  /** The bytes carried by one group of 2, 3 or 4 characters; the leftover low bits of a partial group are dropped. */
  function DecodeGroup(vs: seq<sextet>): (g: seq<uint8>)
    requires 2 <= |vs| <= 4
    ensures |g| == |vs| - 1
  {
    var v0, v1 := vs[0] as int, vs[1] as int;
    var b0 := v0 * 4 + v1 / 16;
    if |vs| == 2 then [b0]
    else
      var v2 := vs[2] as int;
      var b1 := (v1 % 16) * 16 + v2 / 4;
      if |vs| == 3 then [b0, b1]
      else [b0, b1, (v2 % 4) * 64 + vs[3] as int]
  }

  /** Decodes the characters' values four at a time; a final group of 2 or 3 yields 1 or 2 bytes. */
  function DecodeSextets(vs: seq<sextet>): (bytes: seq<uint8>)
    requires |vs| % 4 != 1
    ensures |bytes| == |vs| * 3 / 4
    decreases |vs|
  {
    if |vs| == 0 then []
    else if |vs| <= 4 then DecodeGroup(vs)
    else
      ThreeQuarters(|vs|);
      DecodeGroup(vs[..4]) + DecodeSextets(vs[4..])
  }

  /** Four characters more are three bytes more. */
  lemma ThreeQuarters(n: nat)
    requires n >= 4
    ensures (n - 4) * 3 / 4 + 3 == n * 3 / 4 && (n - 4) % 4 == n % 4
  {
  }

  /** The "binary string" `atob` returns: one character per byte. */
  function BinaryString(bytes: seq<uint8>): (s: string)
    ensures |s| == |bytes|
    ensures forall i :: 0 <= i < |s| ==> s[i] as int == bytes[i]
  {
    seq(|bytes|, i requires 0 <= i < |bytes| => bytes[i] as char)
  }

  /** The values of a string of standard-alphabet characters. */
  function StdValues(e: string): (vs: seq<sextet>)
    requires forall i :: 0 <= i < |e| ==> IsStdChar(e[i])
    ensures |vs| == |e|
  {
    seq(|e|, i requires 0 <= i < |e| => StdValue(e[i]))
  }

  /** `window.atob`; `None` stands for the thrown `InvalidCharacterError`. */
  function Atob(data: string): (r: Option<string>)
    ensures r.Some? ==> forall i :: 0 <= i < |r.value| ==> r.value[i] as int < 256
  {
    var d := RemoveWhitespace(data);
    var e := StripPadding(d);
    if |e| % 4 == 1 then None
    else if exists i :: 0 <= i < |e| && !IsStdChar(e[i]) then None
    else Some(BinaryString(DecodeSextets(StdValues(e))))
  }

  // ---------------------------------------------------------------------
  // Step 4: the Uint8Array copy (push.tsx lines 13-18)

  /** `new Uint8Array(n)` filled by `outputArray[i] = raw.charCodeAt(i)`; a store into a `Uint8Array` keeps the code modulo 256. */
  function CharCodes(raw: string): (out: seq<uint8>)
    ensures |out| == |raw|
    ensures forall i :: 0 <= i < |raw| ==> out[i] == raw[i] as int % 256
  {
    seq(|raw|, i requires 0 <= i < |raw| => raw[i] as int % 256)
  }

  /** The copy loop itself, element by element. */
  method CopyCharCodes(raw: string) returns (out: seq<uint8>)
    ensures out == CharCodes(raw)
    ensures |out| == |raw|
    ensures forall i :: 0 <= i < |raw| ==> out[i] == raw[i] as int % 256
    ensures forall i :: 0 <= i < |raw| && raw[i] as int < 256 ==> out[i] == raw[i] as int
  {
    out := seq(|raw|, _ => 0);
    var i := 0;
    while i < |raw|
      invariant 0 <= i <= |raw|
      invariant |out| == |raw|
      invariant forall j :: 0 <= j < i ==> out[j] == raw[j] as int % 256
    {
      out := out[i := raw[i] as int % 256];
      i := i + 1;
    }
  }

  /** `urlBase64ToUint8Array`: `None` when `atob` throws. */
  function UrlBase64ToUint8Array(s: string): (r: Option<seq<uint8>>)
    ensures r.Some? <==> Atob(ToStandard(s)).Some?
    ensures r.Some? ==> var raw := Atob(ToStandard(s)).value;
      |r.value| == |raw| && forall i :: 0 <= i < |raw| ==> r.value[i] == raw[i] as int
  {
    match Atob(ToStandard(s))
    case None => None
    case Some(raw) =>
      SmallCodesKept(raw);
      Some(CharCodes(raw))
  }

  /** Codes below 256 are stored unchanged. */
  lemma SmallCodesKept(raw: string)
    requires forall i :: 0 <= i < |raw| ==> raw[i] as int < 256
    ensures forall i :: 0 <= i < |raw| ==> CharCodes(raw)[i] == raw[i] as int
  {
  }

  // ---------------------------------------------------------------------
  // Reference encoder: unpadded base64url, section 5 of RFC 4648

  /** The 6-bit values of a group of 1 to 3 bytes; a partial group fills its missing low bits with zero. */
  function EncodeGroup(g: seq<uint8>): (vs: seq<sextet>)
    requires 1 <= |g| <= 3
    ensures |vs| == |g| + 1
  {
    var b0 := g[0] as int;
    var b1 := if |g| > 1 then g[1] as int else 0;
    var b2 := if |g| > 2 then g[2] as int else 0;
    var vs := [b0 / 4, (b0 % 4) * 16 + b1 / 16, (b1 % 16) * 4 + b2 / 64, b2 % 64];
    vs[..|g| + 1]
  }

  function EncodeSextets(bytes: seq<uint8>): (vs: seq<sextet>)
    ensures |vs| % 4 != 1
    ensures |vs| == 4 * (|bytes| / 3) + (if |bytes| % 3 == 0 then 0 else |bytes| % 3 + 1)
    decreases |bytes|
  {
    if |bytes| == 0 then []
    else if |bytes| <= 3 then EncodeGroup(bytes)
    else EncodeGroup(bytes[..3]) + EncodeSextets(bytes[3..])
  }

  /** Unpadded base64url text of `bytes`, as a VAPID public key is distributed. */
  function EncodeUrl(bytes: seq<uint8>): (s: string)
    ensures |s| % 4 != 1
    ensures forall i :: 0 <= i < |s| ==> IsUrlChar(s[i])
  {
    var vs := EncodeSextets(bytes);
    seq(|vs|, i requires 0 <= i < |vs| => UrlChar(vs[i]))
  }

  // ---------------------------------------------------------------------
  // Properties of the decoder

  /** Splitting a group of bytes into 6-bit values and joining them again is the identity. */
  lemma GroupRoundTrip(g: seq<uint8>)
    requires 1 <= |g| <= 3
    ensures DecodeGroup(EncodeGroup(g)) == g
  {
  }

  /** The 6-bit decoder undoes the 6-bit encoder on every byte sequence. */
  lemma {:induction false} SextetsRoundTrip(bytes: seq<uint8>)
    ensures DecodeSextets(EncodeSextets(bytes)) == bytes
    decreases |bytes|
  {
    if |bytes| == 0 {
    } else if |bytes| <= 3 {
      GroupRoundTrip(bytes);
    } else {
      var vs := EncodeSextets(bytes);
      var first := EncodeGroup(bytes[..3]);
      var rest := EncodeSextets(bytes[3..]);
      assert vs == first + rest;
      assert vs[..4] == first && vs[4..] == rest;
      GroupRoundTrip(bytes[..3]);
      SextetsRoundTrip(bytes[3..]);
      assert DecodeSextets(vs) == DecodeGroup(first) + DecodeSextets(rest);
      assert bytes == bytes[..3] + bytes[3..];
    }
  }

  /** No character of the input is ASCII whitespace. */
  predicate NoWhitespace(s: string) {
    forall i :: 0 <= i < |s| ==> !IsAsciiWhitespace(s[i])
  }

  /** Padding and substitution add no whitespace, so `atob`'s whitespace removal leaves the string alone. */
  lemma StandardHasNoWhitespace(s: string)
    requires NoWhitespace(s)
    ensures RemoveWhitespace(ToStandard(s)) == ToStandard(s)
  {
    var t := ToStandard(s);
    forall i | 0 <= i < |t|
      ensures !IsAsciiWhitespace(t[i])
    {
      if i < |s| {
        assert t[i] == s[i] || t[i] == '+' || t[i] == '/';
      }
    }
  }

  /** Substitution never produces `=`: only the padding does. */
  lemma StandardKeepsNonPad(s: string, k: nat)
    requires k < |s| && s[k] != '='
    ensures ToStandard(s)[k] != '='
  {
  }

  /**
   * For unpadded input whose length is not 1 modulo 4, the padding the
   * decoder adds is exactly what `atob` strips again.
   */
  lemma PaddingIsStripped(s: string)
    requires NoWhitespace(s) && '=' !in s && |s| % 4 != 1
    ensures StripPadding(RemoveWhitespace(ToStandard(s))) == ToStandard(s)[..|s|]
  {
    StandardHasNoWhitespace(s);
    var t := ToStandard(s);
    if |s| > 0 {
      StandardKeepsNonPad(s, |s| - 1);
    }
    StripAfterPadding(t, |s|);
  }

  /** `StripPadding` removes exactly the `=` characters appended after position `n`. */
  lemma StripAfterPadding(t: string, n: nat)
    requires n <= |t| && |t| % 4 == 0 && |t| - n == |Padding(n)|
    requires n % 4 != 1 && (n == 0 || t[n - 1] != '=')
    requires forall i :: n <= i < |t| ==> t[i] == '='
    ensures StripPadding(t) == t[..n]
  {
    var e := StripPadding(t);
    if n % 4 == 0 {
      assert |t| == n;
    } else if n % 4 == 2 {
      assert |t| == n + 2;
    } else {
      assert |t| == n + 1;
    }
  }

  /** What `atob` computes for padded, substituted input that was valid base64url or base64 text. */
  lemma AtobOfValidInput(s: string)
    requires NoWhitespace(s) && '=' !in s && |s| % 4 != 1
    requires forall i :: 0 <= i < |s| ==> IsUrlChar(s[i]) || IsStdChar(s[i])
    ensures forall i :: 0 <= i < |s| ==> IsStdChar(ToStandard(s)[i])
    ensures Atob(ToStandard(s)) == Some(BinaryString(DecodeSextets(StdValues(ToStandard(s)[..|s|]))))
  {
    PaddingIsStripped(s);
    var t := ToStandard(s);
    forall i | 0 <= i < |s|
      ensures IsStdChar(t[i])
    {
      assert t[i] == s[i] || t[i] == '+' || t[i] == '/';
    }
  }

  /** Reading a binary string back into a `Uint8Array` gives the bytes it was made of. */
  lemma BinaryStringRoundTrip(bytes: seq<uint8>)
    ensures CharCodes(BinaryString(bytes)) == bytes
  {
    var r := CharCodes(BinaryString(bytes));
    forall i | 0 <= i < |bytes|
      ensures r[i] == bytes[i]
    {
    }
  }

  /**
   * Round trip: the decoder returns the original bytes for every byte
   * sequence written as unpadded base64url.
   */
  lemma RoundTrip(bytes: seq<uint8>)
    ensures UrlBase64ToUint8Array(EncodeUrl(bytes)) == Some(bytes)
  {
    var vs := EncodeSextets(bytes);
    var s := EncodeUrl(bytes);
    assert NoWhitespace(s) && '=' !in s by {
      forall i | 0 <= i < |s|
        ensures s[i] != '=' && !IsAsciiWhitespace(s[i])
      {
        assert IsUrlChar(s[i]);
      }
    }
    AtobOfValidInput(s);
    var e := ToStandard(s)[..|s|];
    assert StdValues(e) == vs by {
      forall i | 0 <= i < |e|
        ensures StdValue(e[i]) == vs[i]
      {
        assert s[i] == UrlChar(vs[i]);
      }
    }
    SextetsRoundTrip(bytes);
    BinaryStringRoundTrip(bytes);
  }

  /** Whitespace removal distributes over concatenation. */
  lemma {:induction false} RemoveWhitespaceAppend(a: string, b: string)
    ensures RemoveWhitespace(a + b) == RemoveWhitespace(a) + RemoveWhitespace(b)
    decreases |a|
  {
    if a == [] {
      assert a + b == b;
    } else {
      assert (a + b)[0] == a[0];
      assert (a + b)[1..] == a[1..] + b;
      RemoveWhitespaceAppend(a[1..], b);
      if !IsAsciiWhitespace(a[0]) {
        assert RemoveWhitespace(a + b) == [a[0]] + (RemoveWhitespace(a[1..]) + RemoveWhitespace(b));
        assert RemoveWhitespace(a) == [a[0]] + RemoveWhitespace(a[1..]);
      }
    }
  }

  /** A character that is not whitespace survives whitespace removal. */
  lemma {:induction false} RemoveWhitespaceKeeps(s: string, k: nat)
    requires k < |s| && !IsAsciiWhitespace(s[k])
    ensures s[k] in RemoveWhitespace(s)
    decreases k
  {
    if k > 0 {
      assert s[1..][k - 1] == s[k];
      RemoveWhitespaceKeeps(s[1..], k - 1);
    }
  }

  /** Input of length 1 modulo 4 is rejected: `atob` throws, whatever the characters. */
  lemma RejectsLengthOneModFour(s: string)
    requires |s| % 4 == 1
    ensures UrlBase64ToUint8Array(s) == None
  {
    var t := ToStandard(s);
    var n := |s|;
    assert |t| == n + 3;
    assert t == t[..n] + t[n..];
    assert t[n..] == "===";
    RemoveWhitespaceAppend(t[..n], t[n..]);
    assert RemoveWhitespace("===") == "===";
    ThreePadsLeaveOne(t);
  }

  /**
   * Once whitespace is removed, three trailing `=` make `atob` throw: at
   * most two are stripped and the third is an invalid character.
   */
  lemma ThreePadsLeaveOne(t: string)
    requires var d := RemoveWhitespace(t);
      |d| >= 3 && d[|d| - 1] == '=' && d[|d| - 2] == '=' && d[|d| - 3] == '='
    ensures Atob(t) == None
  {
    var d := RemoveWhitespace(t);
    var e := StripPadding(d);
    assert |e| >= 1 && e[|e| - 1] == d[|e| - 1];
    assert e[|e| - 1] == '=';
    assert !IsStdChar(e[|e| - 1]);
  }

  /** A character outside both alphabets (and not `=` or whitespace) makes `atob` throw, wherever it sits. */
  lemma RejectsForeignCharacter(s: string, k: nat)
    requires k < |s|
    requires !IsUrlChar(s[k]) && !IsStdChar(s[k]) && s[k] != '=' && !IsAsciiWhitespace(s[k])
    ensures UrlBase64ToUint8Array(s) == None
  {
    var t := ToStandard(s);
    assert t[k] == s[k];
    RemoveWhitespaceKeeps(t, k);
    var d := RemoveWhitespace(t);
    var j :| 0 <= j < |d| && d[j] == s[k];
    var e := StripPadding(d);
    assert j < |e| && e[j] == s[k];
    assert !IsStdChar(e[j]);
  }

  /**
   * For unpadded input without whitespace, decoding succeeds exactly when
   * the length is not 1 modulo 4 and every character is in the base64url or
   * the standard alphabet, and then `n` characters give `n * 3 / 4` bytes.
   */
  lemma AcceptedExactly(s: string)
    requires NoWhitespace(s) && '=' !in s
    ensures UrlBase64ToUint8Array(s).Some? <==>
      |s| % 4 != 1 && forall i :: 0 <= i < |s| ==> IsUrlChar(s[i]) || IsStdChar(s[i])
    ensures UrlBase64ToUint8Array(s).Some? ==> |UrlBase64ToUint8Array(s).value| == |s| * 3 / 4
  {
    if |s| % 4 == 1 {
      RejectsLengthOneModFour(s);
    } else if k :| 0 <= k < |s| && !(IsUrlChar(s[k]) || IsStdChar(s[k])) {
      RejectsForeignCharacter(s, k);
    } else {
      PaddingIsStripped(s);
      var t := ToStandard(s);
      var e := t[..|s|];
      assert forall i :: 0 <= i < |e| ==> IsStdChar(e[i]);
      assert Atob(t).Some?;
    }
  }

  /**
   * Decoding is not injective: the low bits of a final partial group are
   * dropped unchecked, so "AB" and "AA" both decode to the single byte 0.
   * `DecodeThenEncode` and `ReencodesOnlyCanonical` say in general which
   * text re-encoding gives back.
   */
  lemma LeftoverBitsIgnored()
    ensures UrlBase64ToUint8Array("AB") == UrlBase64ToUint8Array("AA") == Some([0])
  {
    assert UrlValues("AB") == [0, 1] && UrlValues("AA") == [0, 0];
    assert DecodeGroup([0, 1]) == [0] && DecodeGroup([0, 0]) == [0];
    DecodeUrl("AB");
    DecodeUrl("AA");
  }

  // ---------------------------------------------------------------------
  // Decode, then encode again

  /** The value of a character of the URL-safe alphabet; inverse of `UrlChar`. */
  function UrlValue(c: char): (v: sextet)
    requires IsUrlChar(c)
    ensures UrlChar(v) == c
  {
    if c == '-' then 62 else if c == '_' then 63 else StdValue(c)
  }

  /** `UrlChar` loses nothing: the value comes back from the character. */
  lemma UrlCharInverse(v: sextet)
    ensures UrlValue(UrlChar(v)) == v
  {
  }

  /** The values of a string of URL-safe characters. */
  function UrlValues(s: string): (vs: seq<sextet>)
    requires forall i :: 0 <= i < |s| ==> IsUrlChar(s[i])
    ensures |vs| == |s|
    ensures forall i :: 0 <= i < |s| ==> UrlChar(vs[i]) == s[i]
  {
    seq(|s|, i requires 0 <= i < |s| => UrlValue(s[i]))
  }

  /**
   * Values an encoder can produce: a length other than 1 modulo 4, and a
   * final partial group whose leftover low bits are zero.
   */
  predicate CanonicalTail(vs: seq<sextet>) {
    && |vs| % 4 != 1
    && (|vs| % 4 == 2 ==> vs[|vs| - 1] % 16 == 0)
    && (|vs| % 4 == 3 ==> vs[|vs| - 1] % 4 == 0)
  }

  /** Joining a group's values into bytes and splitting them again is the identity when no set bit is left over. */
  lemma GroupInverse(vs: seq<sextet>)
    requires 2 <= |vs| <= 4
    requires |vs| == 2 ==> vs[1] % 16 == 0
    requires |vs| == 3 ==> vs[2] % 4 == 0
    ensures EncodeGroup(DecodeGroup(vs)) == vs
  {
    var g := DecodeGroup(vs);
    var v0, v1 := vs[0] as int, vs[1] as int;
    var v2 := if |vs| > 2 then vs[2] as int else 0;
    var v3 := if |vs| > 3 then vs[3] as int else 0;
    var b0 := g[0] as int;
    var b1 := if |g| > 1 then g[1] as int else 0;
    var b2 := if |g| > 2 then g[2] as int else 0;
    assert b0 == v0 * 4 + v1 / 16;
    assert b1 == (v1 % 16) * 16 + v2 / 4;
    assert b2 == (v2 % 4) * 64 + v3;
    Split4(v0, v1 / 16);
    Split16(v1 % 16, v2 / 4);
    Split64(v2 % 4, v3);
    var out := EncodeGroup(g);
    assert out == [b0 / 4, (b0 % 4) * 16 + b1 / 16, (b1 % 16) * 4 + b2 / 64, b2 % 64][..|vs|];
    assert out[0] == vs[0];
    assert out[1] == vs[1];
    assert |vs| > 2 ==> out[2] == vs[2];
    assert |vs| > 3 ==> out[3] == vs[3];
  }

  /** A value shifted left by 2, 4 or 6 bits past a smaller one splits back into both. */
  lemma Split4(hi: int, lo: int)
    requires 0 <= lo < 4
    ensures (hi * 4 + lo) / 4 == hi && (hi * 4 + lo) % 4 == lo
  {
  }

  lemma Split16(hi: int, lo: int)
    requires 0 <= lo < 16
    ensures (hi * 16 + lo) / 16 == hi && (hi * 16 + lo) % 16 == lo
  {
  }

  lemma Split64(hi: int, lo: int)
    requires 0 <= lo < 64
    ensures (hi * 64 + lo) / 64 == hi && (hi * 64 + lo) % 64 == lo
  {
  }

  /** The 6-bit encoder undoes the 6-bit decoder on values an encoder can produce. */
  lemma {:induction false} SextetsInverse(vs: seq<sextet>)
    requires CanonicalTail(vs)
    ensures EncodeSextets(DecodeSextets(vs)) == vs
    decreases |vs|
  {
    if |vs| == 0 {
    } else if |vs| <= 4 {
      GroupInverse(vs);
    } else {
      CanonicalRest(vs);
      SextetsInverse(vs[4..]);
      InverseStep(vs);
    }
  }

  /** If the encoder undoes the decoder after the first group, it undoes it on the whole. */
  lemma InverseStep(vs: seq<sextet>)
    requires |vs| > 4 && |vs| % 4 != 1
    requires EncodeSextets(DecodeSextets(vs[4..])) == vs[4..]
    ensures EncodeSextets(DecodeSextets(vs)) == vs
  {
    var first := DecodeGroup(vs[..4]);
    var rest := DecodeSextets(vs[4..]);
    assert DecodeSextets(vs) == first + rest;
    DecodeNonEmpty(vs[4..]);
    GroupInverse(vs[..4]);
    EncodeSplits(first, rest);
    assert vs == vs[..4] + vs[4..];
  }

  /** Two or more characters decode to at least one byte. */
  lemma DecodeNonEmpty(vs: seq<sextet>)
    requires |vs| >= 2 && |vs| % 4 != 1
    ensures DecodeSextets(vs) != []
  {
    if |vs| > 4 {
      assert |DecodeGroup(vs[..4])| == 3;
    }
  }

  /** Dropping a full group keeps a canonical tail canonical. */
  lemma CanonicalRest(vs: seq<sextet>)
    requires CanonicalTail(vs) && |vs| > 4
    ensures CanonicalTail(vs[4..])
  {
    var rest := vs[4..];
    assert |rest| % 4 == |vs| % 4;
    assert rest[|rest| - 1] == vs[|vs| - 1];
  }

  /** A full group of three bytes in front encodes on its own. */
  lemma EncodeSplits(first: seq<uint8>, rest: seq<uint8>)
    requires |first| == 3 && rest != []
    ensures EncodeSextets(first + rest) == EncodeGroup(first) + EncodeSextets(rest)
  {
    var bytes := first + rest;
    assert bytes[..3] == first && bytes[3..] == rest;
  }

  /** A non-empty byte sequence encodes to at least one character. */
  lemma EncodeNonEmpty(bytes: seq<uint8>)
    requires bytes != []
    ensures EncodeSextets(bytes) != []
  {
    if |bytes| > 3 {
      assert |EncodeGroup(bytes[..3])| == 4;
    }
  }

  /** Every encoding is canonical: its final partial group has no set leftover bit. */
  lemma {:induction false} EncodedIsCanonical(bytes: seq<uint8>)
    ensures CanonicalTail(EncodeSextets(bytes))
    decreases |bytes|
  {
    if 0 < |bytes| <= 3 {
      GroupIsCanonical(bytes);
    } else if |bytes| > 3 {
      var first := EncodeGroup(bytes[..3]);
      var rest := EncodeSextets(bytes[3..]);
      assert EncodeSextets(bytes) == first + rest;
      EncodedIsCanonical(bytes[3..]);
      EncodeNonEmpty(bytes[3..]);
      CanonicalAppend(first, rest);
    }
  }

  /** A single group of 1 to 3 bytes encodes canonically. */
  lemma GroupIsCanonical(g: seq<uint8>)
    requires 1 <= |g| <= 3
    ensures CanonicalTail(EncodeGroup(g))
  {
    var vs := EncodeGroup(g);
    var b0 := g[0] as int;
    if |g| == 1 {
      assert vs[1] == (b0 % 4) * 16;
    } else if |g| == 2 {
      assert vs[2] == (g[1] as int % 16) * 4;
    }
  }

  /** A full group in front of a canonical tail keeps it canonical. */
  lemma CanonicalAppend(first: seq<sextet>, rest: seq<sextet>)
    requires |first| == 4 && rest != [] && CanonicalTail(rest)
    ensures CanonicalTail(first + rest)
  {
    var vs := first + rest;
    assert |vs| % 4 == |rest| % 4;
    assert vs[|vs| - 1] == rest[|rest| - 1];
  }

  /** Decoding base64url text yields the bytes its values decode to. */
  lemma DecodeUrl(s: string)
    requires forall i :: 0 <= i < |s| ==> IsUrlChar(s[i])
    requires |s| % 4 != 1
    ensures UrlBase64ToUint8Array(s) == Some(DecodeSextets(UrlValues(s)))
  {
    assert NoWhitespace(s) && '=' !in s by {
      forall i | 0 <= i < |s|
        ensures s[i] != '=' && !IsAsciiWhitespace(s[i])
      {
        assert IsUrlChar(s[i]);
      }
    }
    AtobOfValidInput(s);
    var e := ToStandard(s)[..|s|];
    var vs := UrlValues(s);
    assert StdValues(e) == vs by {
      forall i | 0 <= i < |e|
        ensures StdValue(e[i]) == vs[i]
      {
        assert s[i] == UrlChar(vs[i]);
      }
    }
    BinaryStringRoundTrip(DecodeSextets(vs));
  }

  /**
   * Decode, then encode: base64url text whose final partial group carries
   * no set leftover bit decodes, and re-encoding the bytes gives the text back.
   */
  lemma DecodeThenEncode(s: string)
    requires forall i :: 0 <= i < |s| ==> IsUrlChar(s[i])
    requires CanonicalTail(UrlValues(s))
    ensures UrlBase64ToUint8Array(s).Some?
    ensures EncodeUrl(UrlBase64ToUint8Array(s).value) == s
  {
    var vs := UrlValues(s);
    DecodeUrl(s);
    SextetsInverse(vs);
    var out := EncodeUrl(DecodeSextets(vs));
    assert |out| == |s|;
    forall i | 0 <= i < |s|
      ensures out[i] == s[i]
    {
      assert out[i] == UrlChar(vs[i]);
    }
  }

  /** And only that text comes back: base64url text that re-encodes to itself is canonical. */
  lemma ReencodesOnlyCanonical(s: string)
    requires forall i :: 0 <= i < |s| ==> IsUrlChar(s[i])
    ensures UrlBase64ToUint8Array(s).Some? && EncodeUrl(UrlBase64ToUint8Array(s).value) == s ==>
      CanonicalTail(UrlValues(s))
  {
    if UrlBase64ToUint8Array(s).Some? && EncodeUrl(UrlBase64ToUint8Array(s).value) == s {
      var vs := EncodeSextets(UrlBase64ToUint8Array(s).value);
      EncodedIsCanonical(UrlBase64ToUint8Array(s).value);
      assert UrlValues(s) == vs by {
        forall i | 0 <= i < |s|
          ensures UrlValues(s)[i] == vs[i]
        {
          assert s[i] == UrlChar(vs[i]);
          UrlCharInverse(vs[i]);
        }
      }
    }
  }
}

=== FILE: delivery.dfy ===
/**
 * End to end: a message the server action hands to the push library, as
 * the service worker later receives and shows it, and where a click on it
 * leads. The push service is assumed to deliver the payload unchanged, and
 * `JSON.stringify` on the server followed by `json()` in the worker is
 * taken to give back the same object (all its members are strings).
 */
module Delivery {
  import opened Wrappers
  import opened Js
  import Actions
  import ServiceWorker

  /** The push event that a sent request produces in the worker. */
  function Arrival(request: Actions.SendRequest): ServiceWorker.PushData {
    ServiceWorker.WithData(Some(request.payload))
  }

  /** A delivered message is shown with its title and body and the payload's icon. */
  lemma DeliveredMessageIsShown(message: Actions.PushMessage, sub: Actions.SerializedSubscription, now: int)
    requires sub.keys.Some?
    ensures var d := Actions.SendNotification(message, Some(sub), true);
      && d.request.Some?
      && var r := ServiceWorker.OnPush(Arrival(d.request.value), now);
      && r.Shown?
      && r.notification.title == Str(message.title)
      && r.notification.options.body == Str(message.body)
      && r.notification.options.icon == Str(Actions.PayloadIcon)
  {
  }

  /**
   * As written, the message's `url` is lost on the way: a click on the
   * delivered notification opens the fallback URL even when the message
   * carried a non-empty `url`.
   */
  lemma ClickIgnoresMessageUrl(message: Actions.PushMessage, sub: Actions.SerializedSubscription, now: int)
    requires sub.keys.Some? && message.url != "" && message.url != ServiceWorker.FallbackUrl
    ensures var d := Actions.SendNotification(message, Some(sub), true);
      && d.request.Some?
      && var r := ServiceWorker.OnPush(Arrival(d.request.value), now);
      && r.Shown?
      && ServiceWorker.OnNotificationClick(r.notification)[1] == ServiceWorker.OpenWindow(Str(ServiceWorker.FallbackUrl))
      && ServiceWorker.OnNotificationClick(r.notification)[1] != ServiceWorker.OpenWindow(Str(message.url))
  {
    var d := Actions.SendNotification(message, Some(sub), true);
    ServiceWorker.ClickOnShownOpensFallback(Arrival(d.request.value), now);
  }

  /**
   * With the corrected push handler, a click opens the message's `url`, and
   * the fallback only when that `url` is empty.
   */
  lemma ClickOpensMessageUrl(message: Actions.PushMessage, sub: Actions.SerializedSubscription, now: int)
    requires sub.keys.Some?
    ensures var d := Actions.SendNotification(message, Some(sub), true);
      && d.request.Some?
      && var r := ServiceWorker.OnPushWithUrl(Arrival(d.request.value), now);
      && r.Shown?
      && ServiceWorker.OnNotificationClick(r.notification)[1]
        == ServiceWorker.OpenWindow(Str(if message.url != "" then message.url else ServiceWorker.FallbackUrl))
  {
    var d := Actions.SendNotification(message, Some(sub), true);
    ServiceWorker.ClickOnCorrectedOpensPayloadUrl(Arrival(d.request.value), now);
  }
}

=== FILE: js.dfy ===
/**
 * The fragment of JavaScript values the handlers and the server action touch:
 * JSON-shaped values plus `undefined`, their truthiness, and property access.
 * Numbers are integers; NaN and fractions are not part of this model.
 */
module Js {
  import opened Wrappers

  datatype Value =
    | Undefined
    | Null
    | Bool(b: bool)
    | Num(n: int)
    | Str(s: string)
    | Arr(elems: seq<Value>)
    | Obj(fields: map<string, Value>)

  /** JavaScript's `ToBoolean`: `undefined`, `null`, `false`, `0` and `""` are falsy. */
  predicate Truthy(v: Value) {
    match v
    case Undefined => false
    case Null => false
    case Bool(b) => b
    case Num(n) => n != 0
    case Str(s) => s != ""
    case Arr(_) => true
    case Obj(_) => true
  }

  /** `a || b`: the left operand when it is truthy, otherwise the right one. */
  function Or(a: Value, b: Value): (r: Value)
    ensures Truthy(a) ==> r == a
    ensures !Truthy(a) ==> r == b
  {
    if Truthy(a) then a else b
  }

  /**
   * `v.key`: a TypeError (None) on `null` and `undefined`; the member of an
   * object, or `undefined` when it has none; `undefined` on the other
   * primitives and on arrays, since none of them has the keys used here
   * as own or inherited properties.
   */
  function Get(v: Value, key: string): (r: Option<Value>)
    ensures r.None? <==> v.Undefined? || v.Null?
    ensures v.Obj? && key in v.fields ==> r == Some(v.fields[key])
    ensures v.Obj? && key !in v.fields ==> r == Some(Undefined)
  {
    match v
    case Undefined => None
    case Null => None
    case Obj(fields) => if key in fields then Some(fields[key]) else Some(Undefined)
    case _ => Some(Undefined)
  }

  /** `v?.key`: optional chaining yields `undefined` instead of throwing. */
  function GetOptional(v: Value, key: string): (r: Value)
    ensures v.Undefined? || v.Null? ==> r == Undefined
    ensures !(v.Undefined? || v.Null?) ==> Some(r) == Get(v, key)
  {
    Get(v, key).GetOr(Undefined)
  }
}

=== FILE: push_client.dfy ===
/**
 * The page-side handlers `subscribeToPush`, `unsubscribeFromPush` and
 * `sendTestNotification` as functions from the page's state to the next
 * state and the ordered list of platform and server calls they make.
 * Browser promises are oracles: `granted` is what `pushManager.subscribe`
 * resolved to (`None` when it rejected), `teardownOk` whether
 * `subscription.unsubscribe()` resolved, `delivered` whether the push
 * library's send resolved on the server.
 */
module PushClient {
  import opened Wrappers
  import Base64Url
  import Actions

  /**
   * A browser `PushSubscription`. How the browser serializes it
   * (`PushSubscription.toJSON`) is not visible, so each handle simply
   * carries the record `JSON.parse(JSON.stringify(sub))` produces for it.
   */
  datatype Handle = Handle(serialized: Actions.SerializedSubscription)

  /** The page's `subscription` state together with the server's slot. */
  datatype World = World(local: Option<Handle>, server: Actions.Slot)

  /** A call the handlers make, in the order they make them. */
  datatype Effect =
    | ConfigurationAlert
    | BrowserSubscribe(applicationServerKey: seq<Base64Url.uint8>)
    | SetLocal(handle: Option<Handle>)
    | ServerSubscribe(sub: Actions.SerializedSubscription)
    | BrowserUnsubscribe
    | ServerUnsubscribe
    | ServerSend(message: Actions.PushMessage, sub: Actions.SerializedSubscription)

  /** A handler run: the resulting state, its calls, and whether its promise resolved (`false`: rejected). */
  datatype Trace = Trace(world: World, effects: seq<Effect>, completed: bool)

  /** `!VAPID_PUBLIC_KEY` is false: the key is set and not empty. */
  predicate Configured(vapidKey: Option<string>) {
    vapidKey.Some? && vapidKey.value != ""
  }

  /** `subscribeToPush`. */
  function SubscribeToPush(w: World, vapidKey: Option<string>, granted: Option<Handle>): (t: Trace)
    ensures !Configured(vapidKey) ==> t == Trace(w, [ConfigurationAlert], true)
    ensures forall i :: 0 <= i < |t.effects| && t.effects[i].BrowserSubscribe? ==>
      Configured(vapidKey) && Base64Url.UrlBase64ToUint8Array(vapidKey.value) == Some(t.effects[i].applicationServerKey)
    ensures t.world != w ==> t.completed && granted.Some?
    ensures Configured(vapidKey) && t.completed ==>
      && granted.Some?
      && t.world == World(granted, Some(granted.value.serialized))
      && |t.effects| == 3 && t.effects[0].BrowserSubscribe?
      && t.effects[1] == SetLocal(granted) && t.effects[2] == ServerSubscribe(granted.value.serialized)
    ensures Configured(vapidKey) && !t.completed ==>
      && t.world == w
      && (t.effects == [] || (granted.None? && |t.effects| == 1 && t.effects[0].BrowserSubscribe?))
  {
    if vapidKey.None? || vapidKey.value == "" then
      Trace(w, [ConfigurationAlert], true)
    else
      match Base64Url.UrlBase64ToUint8Array(vapidKey.value)
      case None => Trace(w, [], false)
      case Some(key) =>
        match granted
        case None => Trace(w, [BrowserSubscribe(key)], false)
        case Some(h) =>
          var server := Actions.SubscribeUser(w.server, h.serialized).slot;
          Trace(World(Some(h), server), [BrowserSubscribe(key), SetLocal(Some(h)), ServerSubscribe(h.serialized)], true)
  }

  /** `unsubscribeFromPush`; with no local subscription the optional call is skipped. */
  function UnsubscribeFromPush(w: World, teardownOk: bool): (t: Trace)
    ensures t.completed ==> t.world == World(None, None)
    ensures !t.completed ==> t.world == w && t.effects == [BrowserUnsubscribe]
    ensures t.completed <==> w.local.None? || teardownOk
    ensures w.local.Some? && teardownOk ==> t.effects == [BrowserUnsubscribe, SetLocal(None), ServerUnsubscribe]
    ensures w.local.None? ==> t.effects == [SetLocal(None), ServerUnsubscribe]
  {
    if w.local.Some? && !teardownOk then
      Trace(w, [BrowserUnsubscribe], false)
    else
      var teardown := if w.local.Some? then [BrowserUnsubscribe] else [];
      var server := Actions.UnsubscribeUser(w.server).slot;
      Trace(World(None, server), teardown + [SetLocal(None), ServerUnsubscribe], true)
  }

  /** `sendTestNotification`: only with a local subscription; the promise rejects when the action throws. */
  function SendTestNotification(w: World, message: Actions.PushMessage, delivered: bool): (t: Trace)
    ensures t.world == w
    ensures w.local.None? ==> t.effects == [] && t.completed
    ensures forall i :: 0 <= i < |t.effects| ==>
      t.effects[i].ServerSend? && w.local.Some? && t.effects[i].sub == w.local.value.serialized
    ensures w.local.Some? ==> t.effects == [ServerSend(message, w.local.value.serialized)]
    ensures w.local.Some? ==> (t.completed <==> w.local.value.serialized.keys.Some?)
    ensures !t.completed ==> w.local.Some? && w.local.value.serialized.keys.None?
  {
    match w.local
    case None => Trace(w, [], true)
    case Some(h) =>
      var reply := Actions.Step(w.server, Actions.Send(message, Some(h.serialized), delivered));
      Trace(World(w.local, reply.slot), [ServerSend(message, h.serialized)], reply.result.dispatch.outcome.Returned?)
  }

  // ---------------------------------------------------------------------
  // Sessions

  /** A button press on the page. */
  datatype UserAction =
    | PressSubscribe(granted: Option<Handle>)
    | PressUnsubscribe(teardownOk: bool)
    | PressSend(message: Actions.PushMessage, delivered: bool)

  function Perform(w: World, vapidKey: Option<string>, a: UserAction): Trace {
    match a
    case PressSubscribe(granted) => SubscribeToPush(w, vapidKey, granted)
    case PressUnsubscribe(ok) => UnsubscribeFromPush(w, ok)
    case PressSend(message, delivered) => SendTestNotification(w, message, delivered)
  }

  /** The state after a sequence of button presses, each handler run to its end. */
  function Session(w: World, vapidKey: Option<string>, actions: seq<UserAction>): World
    decreases |actions|
  {
    if actions == [] then w
    else Session(Perform(w, vapidKey, actions[0]).world, vapidKey, actions[1..])
  }

  /** The server slot holds exactly what the page holds. */
  predicate Synced(w: World) {
    w.server == if w.local.Some? then Some(w.local.value.serialized) else None
  }

  // ---------------------------------------------------------------------
  // Properties

  /** An empty or unset key: an alert, and no subscribe attempt, no server call, no state change. */
  lemma MissingKeyChangesNothing(w: World, vapidKey: Option<string>, granted: Option<Handle>)
    requires vapidKey == None || vapidKey == Some("")
    ensures SubscribeToPush(w, vapidKey, granted).world == w
    ensures forall e :: e in SubscribeToPush(w, vapidKey, granted).effects ==> e == ConfigurationAlert
  {
  }

  /**
   * With a key configured, the handler completes exactly when the key decodes
   * and the browser grants the subscription; a key that decodes is always
   * handed to `pushManager.subscribe` first, and a key that does not decode
   * stops it before any `pushManager.subscribe` or server call.
   */
  lemma SubscribeOutcome(w: World, key: string, granted: Option<Handle>)
    requires key != ""
    ensures SubscribeToPush(w, Some(key), granted).completed <==>
      Base64Url.UrlBase64ToUint8Array(key).Some? && granted.Some?
    ensures Base64Url.UrlBase64ToUint8Array(key).None? ==> SubscribeToPush(w, Some(key), granted) == Trace(w, [], false)
    ensures Base64Url.UrlBase64ToUint8Array(key).Some? ==>
      SubscribeToPush(w, Some(key), granted).effects[0] == BrowserSubscribe(Base64Url.UrlBase64ToUint8Array(key).value)
  {
  }

  /** A key of length 1 modulo 4 never reaches `pushManager.subscribe`: decoding throws first. */
  lemma MalformedKeyNeverSubscribes(w: World, key: string, granted: Option<Handle>)
    requires |key| % 4 == 1
    ensures SubscribeToPush(w, Some(key), granted) == Trace(w, [], false)
  {
    Base64Url.RejectsLengthOneModFour(key);
  }

  /** A key that is valid unpadded base64url of some bytes is passed to the browser as exactly those bytes. */
  lemma EncodedKeyReachesBrowser(w: World, bytes: seq<Base64Url.uint8>, granted: Option<Handle>)
    requires bytes != []
    ensures var t := SubscribeToPush(w, Some(Base64Url.EncodeUrl(bytes)), granted);
      |t.effects| >= 1 && t.effects[0] == BrowserSubscribe(bytes)
  {
    var key := Base64Url.EncodeUrl(bytes);
    assert |Base64Url.EncodeSextets(bytes)| >= 2;
    assert key != "";
    Base64Url.RoundTrip(bytes);
  }

  /** A normal unsubscribe tears down the browser subscription, then clears local state, then the server slot. */
  lemma UnsubscribeOrder(w: World)
    requires w.local.Some?
    ensures var t := UnsubscribeFromPush(w, true);
      && t.effects[0] == BrowserUnsubscribe
      && t.effects[1] == SetLocal(None)
      && t.effects[2] == ServerUnsubscribe
      && t.world == World(None, None)
  {
  }

  /** No handler breaks the agreement between the page and the server slot. */
  lemma PerformKeepsSynced(w: World, vapidKey: Option<string>, a: UserAction)
    requires Synced(w)
    ensures Synced(Perform(w, vapidKey, a).world)
  {
  }

  /** So any session that starts in agreement stays in agreement. */
  lemma {:induction false} SessionKeepsSynced(w: World, vapidKey: Option<string>, actions: seq<UserAction>)
    requires Synced(w)
    ensures Synced(Session(w, vapidKey, actions))
    decreases |actions|
  {
    if actions != [] {
      PerformKeepsSynced(w, vapidKey, actions[0]);
      SessionKeepsSynced(Perform(w, vapidKey, actions[0]).world, vapidKey, actions[1..]);
    }
  }
}

=== FILE: service_worker.dfy ===
/**
 * The service worker's two event handlers as functions from the event to
 * what the worker does: the `push` handler builds the arguments of
 * `showNotification`, the `notificationclick` handler closes the
 * notification and opens a window. `Date.now()` is the parameter `now`;
 * `waitUntil` and the console log are not modelled.
 */
module ServiceWorker {
  import opened Wrappers
  import opened Js

  const DefaultIcon := "/icon.png"
  const Badge := "/badge.png"
  const Vibrate: seq<int> := [100, 50, 100]
  const PrimaryKey := "2"
  const FallbackUrl := "https://jorgecastrillo.blog"

  /**
   * `event.data`: `null` when the push carried no payload; otherwise the
   * outcome of `event.data.json()`, `None` when the text is not JSON.
   */
  datatype PushData = NoData | WithData(json: Option<Value>)

  /** The options object passed to `showNotification`. */
  datatype NotificationOptions = NotificationOptions(
    body: Value, icon: Value, badge: string, vibrate: seq<int>, data: Value)

  /** A notification as shown, and as the click event later hands it back. */
  datatype Notification = Notification(title: Value, options: NotificationOptions)

  /** What the `push` handler does: nothing, show one notification, or throw (uncaught). */
  datatype PushOutcome = Ignored | Shown(notification: Notification) | Threw

  /** What the `notificationclick` handler asks of the platform, in order. */
  datatype ClickAction = CloseNotification | OpenWindow(url: Value)

  /** The click-routing metadata attached to every notification. */
  function ArrivalData(now: int): (v: Value)
    ensures v.Obj? && v.fields.Keys == {"dateOfArrival", "primaryKey"}
    ensures v.fields["primaryKey"] == Str(PrimaryKey)
    ensures v.fields["dateOfArrival"] == Num(now)
  {
    Obj(map["dateOfArrival" := Num(now), "primaryKey" := Str(PrimaryKey)])
  }

  /**
   * The `push` handler. A payload that is not JSON makes `json()` throw, and
   * a payload of `null` makes `data.body` throw; neither is caught.
   */
  function OnPush(event: PushData, now: int): (r: PushOutcome)
    ensures r.Ignored? <==> event.NoData?
    ensures r.Threw? <==> event.WithData? && (event.json.None? || event.json.value.Null? || event.json.value.Undefined?)
    ensures r.Shown? ==>
      var data := event.json.value;
      var options := r.notification.options;
      && Some(r.notification.title) == Get(data, "title")
      && Some(options.body) == Get(data, "body")
      && (Truthy(Get(data, "icon").value) ==> options.icon == Get(data, "icon").value)
      && (!Truthy(Get(data, "icon").value) ==> options.icon == Str(DefaultIcon))
      && options.badge == Badge
      && options.vibrate == Vibrate
      && options.data == ArrivalData(now)
  {
    match event
    case NoData => Ignored
    case WithData(None) => Threw
    case WithData(Some(data)) =>
      match (Get(data, "body"), Get(data, "icon"), Get(data, "title"))
      case (Some(body), Some(icon), Some(title)) =>
        var options := NotificationOptions(body, Or(icon, Str(DefaultIcon)), Badge, Vibrate, ArrivalData(now));
        Shown(Notification(title, options))
      case _ => Threw
  }

  /** The window the click handler opens: `data?.url`, or the fallback when that is falsy. */
  function ClickTarget(data: Value): (url: Value)
    ensures Truthy(url)
    ensures Truthy(GetOptional(data, "url")) ==> url == GetOptional(data, "url")
    ensures !Truthy(GetOptional(data, "url")) ==> url == Str(FallbackUrl)
  {
    Or(GetOptional(data, "url"), Str(FallbackUrl))
  }

  /** The `notificationclick` handler: close the notification, then open the target. */
  function OnNotificationClick(n: Notification): (actions: seq<ClickAction>)
    ensures |actions| == 2 && actions[0] == CloseNotification && actions[1].OpenWindow?
    ensures var url := GetOptional(n.options.data, "url");
      actions[1].url == if Truthy(url) then url else Str(FallbackUrl)
  {
    [CloseNotification, OpenWindow(ClickTarget(n.options.data))]
  }

  // ---------------------------------------------------------------------
  // Properties

  /** Every notification this worker shows carries only the arrival metadata, and no `url`. */
  lemma ShownDataHasNoUrl(event: PushData, now: int)
    requires OnPush(event, now).Shown?
    ensures "url" !in OnPush(event, now).notification.options.data.fields
  {
  }

  /** So clicking a notification shown by this worker always opens the fallback URL. */
  lemma ClickOnShownOpensFallback(event: PushData, now: int)
    requires OnPush(event, now).Shown?
    ensures OnNotificationClick(OnPush(event, now).notification)[1] == OpenWindow(Str(FallbackUrl))
  {
  }

  /** A payload without `icon` is shown with the default icon. */
  lemma MissingIconUsesDefault(fields: map<string, Value>, now: int)
    requires "icon" !in fields
    ensures OnPush(WithData(Some(Obj(fields))), now).Shown?
    ensures OnPush(WithData(Some(Obj(fields))), now).notification.options.icon == Str(DefaultIcon)
  {
  }

  // ---------------------------------------------------------------------
  // The handler as evidently intended: the payload's `url` travels with the notification

  /** Like `OnPush`, but the attached metadata also carries the payload's `url`. */
  function OnPushWithUrl(event: PushData, now: int): (r: PushOutcome)
    ensures r.Shown? <==> OnPush(event, now).Shown?
    ensures !r.Shown? ==> r == OnPush(event, now)
    ensures r.Shown? ==>
      var shown := OnPush(event, now).notification;
      r.notification == shown.(options := shown.options.(data := Obj(ArrivalData(now).fields["url" := Get(event.json.value, "url").value])))
  {
    match OnPush(event, now)
    case Shown(Notification(title, options)) =>
      var url := Get(event.json.value, "url").value;
      Shown(Notification(title, options.(data := Obj(ArrivalData(now).fields["url" := url]))))
    case other => other
  }

  /** With the corrected handler, a click opens the payload's `url` when it is truthy, else the fallback. */
  lemma ClickOnCorrectedOpensPayloadUrl(event: PushData, now: int)
    requires OnPushWithUrl(event, now).Shown?
    ensures var url := Get(event.json.value, "url").value;
      OnNotificationClick(OnPushWithUrl(event, now).notification)[1]
        == OpenWindow(if Truthy(url) then url else Str(FallbackUrl))
  {
  }
}

=== FILE: wrappers.dfy ===
/** The optional-value datatype shared by the other modules. */
module Wrappers {

  /** A value that may be absent; stands for a JavaScript `null` or a failed step. */
  datatype Option<+T> = None | Some(value: T) {

    /** Returns the value or `default` when absent. */
    function GetOr(default: T): T {
      match this
      case Some(v) => v
      case None => default
    }
  }
}
